=== FILE: README.md ===
# mkbs: multi-key binary search, modelled in Dafny

`mkbs` looks up a whole batch of `N` keys in one sorted haystack. It returns one
outcome per key, in key order:
- `Ok(i)`: the key was found at index `i`.
- `Err(Some(i))`: the key is absent, and `i` is where it could be inserted.
- `Err(None)`: no answer was computed.

Both searches are recursive. A call takes the middle key of its key range and searches
for it with the standard `binary_search` in its haystack window. Its left half then
recurses left of the found or suggested position, and its right half recurses right of it.

- `mkbs_all` (`_mkbs_all_by`) answers every key.
- `mkbs` (`_mkbs_by`) first compares the middle key with the two ends of the window.
  When the key is outside them, the search drops that key and the half of the key
  range beyond it, and leaves their slots at `Err(None)`.

The model is purely functional. The result batch is a `seq<SearchResult>` that is
threaded through the calls: each call takes a batch and returns the updated one.
Haystack and keys are `seq<int>`. Window bounds are `nat`. The key range's right end
is an `int`, as the source's `isize` is, so that `-1` can mark an empty range.

Modules:
- `Outcomes`: the outcome type, and what a truthful answer about a sorted haystack is.
- `StdSearch`: the standard `binary_search`, with its documented contract proved.
- `SearchStep`: `get_middle`, the window search, and the range invariant both
  recursions keep.
- `Exhaustive`: `_mkbs_all_by` and `mkbs_all`.
- `Pruned`: `_mkbs_by` and `mkbs`, with the two out-of-range steps repaired (see
  Findings).
- `PrunedAsWritten`: `_mkbs_by` and `mkbs` as written. Here a debug-build panic
  is an outcome of the run.

Correctness needs strictly increasing keys, not just sorted ones. With a key given
twice, `mkbs_all` can report a copy absent although it is present, for instance when the
batch repeats the haystack's last element (`Exhaustive.DuplicateKeysMisreported`). The
crate documentation (src/lib.rs:1-16) does not say the keys must be distinct; the
correctness proofs need them to be. The code's own tests
deduplicate the keys (src/lib.rs:235).

## Model

| member | source | states |
|---|---|---|
| Outcomes.Unanswered | src/lib.rs:158 | the pre-filled batch has `N` slots, all `Err(None)` |
| Outcomes.Position | src/lib.rs:54 | the `unwrap_or_else` of a definite outcome: the index it carries, whether found or suggested |
| Outcomes.AnswersFound | src/lib.rs:12-14 | a truthful outcome is `Ok` exactly when the key is in the haystack |
| Outcomes.AnswerUnique | src/lib.rs:12-14 | in a strictly sorted haystack two truthful definite outcomes for the same key are equal, so the answer promised for a key is unique |
| Outcomes.InsertionPointUnique | src/lib.rs:12-14 | a key has at most one insertion point, so a suggested index is determined by the key, sorted haystack or not |
| Outcomes.AnswersMonotone | src/lib.rs:56-74 | for strictly increasing keys, truthful definite outcomes have non-decreasing positions along the batch |
| StdSearch.LastNotAbove | src/lib.rs:41 | the slice search: an `Ok` index is inside the slice and holds the key; an `Err` index is at most the slice length |
| StdSearch.LastNotAboveAfter | src/lib.rs:41 | elements after a found index, and from a miss's index on, are above the key, and the element just before a miss is below it, so a repeated key is found at its last copy |
| StdSearch.LastNotAboveAt | src/lib.rs:41 | if every slice element from `e` on is above the key and the one before `e` is not, the search reports `Ok(e - 1)` when that element equals the key and `Err(e)` otherwise |
| StdSearch.LastNotAboveSplits | src/lib.rs:12-14 | on a sorted slice a miss splits it: elements before the reported index are below the key, those from it on are above |
| StdSearch.LastNotAboveSameSlice | src/lib.rs:41 | the search depends only on the slice's elements, not on where the slice sits |
| StdSearch.BinarySearch | src/lib.rs:41 | `binary_search` on a whole slice: a found index holds the key; a miss is at most the length |
| StdSearch.BinarySearchDocumented | src/lib.rs:12-14 | the search keeps the documented contract of `binary_search`: `Ok(i)` holds the key, and on a sorted slice `Err(i)` is the insertion point |
| SearchStep.GetMiddle | src/lib.rs:21-24 | the midpoint lies in `left..=right`, and the two halves it leaves differ in size by at most one |
| SearchStep.SaturatingPred | src/lib.rs:59 | `pos.saturating_sub(1)`: one less than `pos`, except that `0` stays `0` |
| SearchStep.SearchWindow | src/lib.rs:41-49 | searching the window `arr[arr_l..=arr_r]`: a found index is inside the window and holds the key; a suggestion is never `None` and lies between `arr_l` and one past `arr_r` |
| SearchStep.SearchWindowIsSliceSearch | src/lib.rs:41-49 | the window search equals `binary_search` on the slice `arr[arr_l..=arr_r]`, with the index shifted by `arr_l` and a miss wrapped in `Some` |
| SearchStep.SearchWindowSplits | src/lib.rs:41-49 | in a sorted haystack a suggestion splits the window into elements below and above the key |
| SearchStep.WindowInitial | src/lib.rs:159-166 | the range invariant holds for the whole haystack and the whole key batch |
| SearchStep.WindowShrink | src/lib.rs:92-108 | narrowing the key range keeps the range invariant |
| SearchStep.OutcomeAnswers | src/lib.rs:41-51 | under the range invariant, the window search answers truthfully about the whole haystack |
| SearchStep.WindowLeft | src/lib.rs:56-64 | the left recursion, with window end `pos.saturating_sub(1)` and the keys before the middle one, keeps the range invariant |
| SearchStep.WindowRight | src/lib.rs:66-74 | the right recursion, with window start `pos + 1` after a hit and `pos` after a miss and the keys after the middle one, keeps the range invariant |
| SearchStep.StepKeepsWindow | src/lib.rs:39-74 | one search step under the invariant: the middle key's outcome is truthful, and both recursive calls start inside the invariant |
| Exhaustive.MkbsAllBy | src/lib.rs:26-75 | slots outside the key range are unchanged; every slot in the range gets a definite outcome, and a found index holds its key; under the range invariant, for a sorted haystack and strictly increasing keys, every outcome is truthful |
| Exhaustive.MkbsAll | src/lib.rs:156-169 | one slot per key; no slot is left at `Err(None)`; a found index holds its key; a suggestion is at most the haystack length |
| Exhaustive.MkbsAllCorrect | src/lib.rs:12-16 | for a sorted haystack and strictly increasing keys: `Ok` exactly when the key is present, at an index holding it, and otherwise the insertion point; positions never decrease along the batch |
| Exhaustive.PastTheEndSuggested | src/lib.rs:41-51 | a key searched in the empty window past the haystack's end gets `Err(Some(len))`, and nothing else changes |
| Exhaustive.AdjacentCopiesOfLast | src/lib.rs:39-74 | two adjacent keys equal to the haystack's last element: the first is found at the end, and the second is suggested at `len` |
| Exhaustive.DuplicateKeysMisreported | src/lib.rs:156-169 | duplicate keys can make a present key be reported absent: a batch of two copies of the haystack's last element gets `[Ok(len - 1), Err(Some(len))]` (for example, haystack `[5]` and keys `[5, 5]` give `[Ok(0), Err(Some(1))]`) |
| Pruned.PruneBelow | src/lib.rs:92-95 | a middle key below the window's first element: under the invariant no key up to it is in the haystack, and the remaining keys keep the invariant |
| Pruned.PruneAbove | src/lib.rs:97-108 | a middle key above the window's last element: under the invariant no key from it on is in the haystack, and the remaining keys keep the invariant |
| Pruned.SearchInside | src/lib.rs:110-120 | a key no greater than the window's last element is never suggested past the haystack's end |
| Pruned.PastTheEnd | src/lib.rs:92 | under the invariant, when the window starts past the haystack's end, no key of the range is in the haystack |
| Pruned.MkbsBy | src/lib.rs:77-142 | slots outside the key range are unchanged. In the range a slot keeps its value or gets a definite outcome: a found index holds its key and a suggestion lies inside the haystack. Under the invariant, a kept slot belongs to an absent key and every new outcome is truthful |
| Pruned.Mkbs | src/lib.rs:171-184 | one slot per key; a found index holds its key; a suggestion lies inside the haystack |
| Pruned.MkbsCorrect | src/lib.rs:12-15 | for a sorted haystack and strictly increasing keys: `Ok` exactly when present; `Err(None)` only for absent keys; a suggestion is a true insertion point inside the haystack; answered positions never decrease |
| Pruned.MkbsAgreesWithMkbsAll | src/lib.rs:12-16 | for a sorted haystack and strictly increasing keys: `mkbs` finds a key exactly when `mkbs_all` does, and a key `mkbs` gives an insertion point gets the same one from `mkbs_all` |
| Pruned.MkbsFindsLikeMkbsAll | src/lib.rs:12-16 | for a strictly sorted haystack and strictly increasing keys, a key `mkbs` finds is found by `mkbs_all` at the same index |
| PrunedAsWritten.MkbsByAsWritten | src/lib.rs:77-142 | as written, panics included. The recursion never reports `EmptyBatch`; when it returns, slots outside the key range are unchanged and a found index holds its key |
| PrunedAsWritten.OrderedStepsSound | src/lib.rs:90-141 | for a sorted haystack and strictly increasing keys, every call under the range invariant can rely on its step: a pruned key and the keys beyond it are absent, a searched key gets a truthful outcome, and every recursive call starts inside the invariant |
| PrunedAsWritten.AsWrittenTruthful | src/lib.rs:77-142 | when the run as written returns and every step is sound, each slot of the key range is kept for an absent key or holds a truthful answer |
| PrunedAsWritten.PruneCaseTruthful | src/lib.rs:92-108 | the same for a call that prunes its middle key: the keys dropped are absent, and the recursion on the rest is truthful |
| PrunedAsWritten.SearchCaseTruthful | src/lib.rs:110-141 | the same for a call that searches its middle key: a panic returns nothing, and otherwise the middle slot and both recursions are truthful |
| PrunedAsWritten.MkbsAsWritten | src/lib.rs:171-184 | as written: an empty batch panics exactly when `N == 0`; an empty haystack panics on `len() - 1`; a returned batch has `N` slots, and for a sorted haystack and strictly increasing keys every slot is a truthful answer |
| PrunedAsWritten.MkbsAsWrittenCorrect | src/lib.rs:12-15 | wherever the run as written returns, for a sorted haystack and strictly increasing keys: `Ok` exactly when present, at an index holding the key; `Err(None)` only for absent keys; a suggestion is a true insertion point |
| PrunedAsWritten.KeyAtFrontPanics | src/lib.rs:124-132 | a middle key equal to the haystack's first element, when that element occurs once, is found at index 0 and makes `pos - 1` underflow |
| PrunedAsWritten.RepeatedFrontKeyReturns | src/lib.rs:110-141 | a repeated first element is found at its last copy, so `pos - 1` does not underflow: haystack `[5, 5]`, keys `[5]` return `[Ok(1)]` |
| PrunedAsWritten.FoundAtEndThenPanics | src/lib.rs:90-141 | a key equal to the haystack's last element is found at the last index, and when another key follows, the next call reads `arr[arr_l]` out of bounds |
| PrunedAsWritten.KeyAtEndPanics | src/lib.rs:171-184 | a batch of two keys, the first equal to the haystack's last element, makes `mkbs` panic with an out-of-bounds index; `[1, 2, 3, 4, 4]` with keys `[4, 5]` is one such input |

## Left out

- The standard `slice::binary_search` is a foreign routine. It is modelled as a search
  for the last element not above the key (`StdSearch.LastNotAbove`). This is one
  behaviour the documented contract allows, and `BinarySearchDocumented` proves that
  contract. On a sorted slice it is the answer of the library's current bisection,
  which moves its base to the probe whenever the probed element is not above the key.
  On an unsorted slice, and in releases that pick another of several equal elements,
  the real routine can answer differently.
- PrunedAsWritten.MkbsByAsWritten: whether a run panics depends on which copy of a
  repeated haystack element the search reports. The model follows the last-copy choice
  above, so a release that reports another copy can panic or return on other inputs.
- PrunedAsWritten.MkbsAsWritten: the same holds for the entry point, for the same
  reason.
- The generic element type `T: Ord` is modelled as `int`, and the const generic `N` as
  the length of the key sequence.
- `Exhaustive.MkbsAll`, `Pruned.Mkbs`: both require a non-empty haystack and a
  non-empty batch. The code panics in a debug build on `N == 0` (`debug_assert_ne!`) and
  on `self.len() - 1` for an empty haystack, and release builds wrap around. The
  as-written `PrunedAsWritten.MkbsAsWritten` models both panics.
- Release-build wrap-around of `pos - 1` is not modelled. `PrunedAsWritten` follows a
  debug build, where the underflow panics.
- Pruned.MkbsFindsLikeMkbsAll: requires a strictly increasing haystack. With duplicate
  haystack elements it does not state that the two searches pick the same copy of a
  key; `MkbsAgreesWithMkbsAll` still shows they find the same keys.
- The `Vec<T>` implementation of `MKBS` (src/lib.rs:187-198) only delegates to the
  slice implementation.
- The tests (src/lib.rs:200-295): random inputs, timing and printing.

## Findings

| source | as written | input that shows it | evidently intended | confidence | as-written member | corrected member |
|---|---|---|---|---|---|---|
| src/lib.rs:127 | the left recursion's window end is `pos - 1` on a `usize` | haystack `[5]`, keys `[5]`: the key is found at index 0, and `0 - 1` underflows | `pos.saturating_sub(1)`, as `_mkbs_all_by` does at line 59 | not executed | PrunedAsWritten.KeyAtFrontPanics | Pruned.MkbsBy |
| src/lib.rs:92 | `arr[arr_l]` is read without checking that the window start is inside the haystack | haystack `[1, 2, 3]`, keys `[3, 4]`: `3` is found at the last index, and the call for `4` starts at `arr_l == 3` | stop when the window starts past the end, since every remaining key is above the haystack | not executed | PrunedAsWritten.KeyAtEndPanics | Pruned.MkbsBy |

In both rows the repaired `Pruned.MkbsBy` is the corrected definition. `Pruned.MkbsCorrect`
proves the intended property about it: every answer is truthful, and a key is found
exactly when it is present.

=== FILE: exhaustive.dfy ===
/**
 `mkbs_all`: the exhaustive multi-key binary search. Every call searches its middle
 key in its haystack window, records the outcome, and recurses on both halves of the
 key range with the haystack window split at the found or suggested position. It
 never prunes, so every key receives a definite outcome.
 */
module Exhaustive {
  import opened Outcomes
  import opened StdSearch
  import opened SearchStep

  /** `_mkbs_all_by`. The result batch is threaded through the calls: the middle slot is
      written here and each recursive call works on its own half of the key range.
      Slots outside the key range are left as they were; every slot of the range gets a
      definite outcome, a found index holding its key; and when the range invariant
      holds for a sorted haystack and strictly increasing keys, every such outcome is a
      truthful answer about the whole haystack. */
  function MkbsAllBy(arr: seq<int>, arrL: nat, arrR: nat, keys: seq<int>, keysL: nat, keysR: int,
                     results: seq<SearchResult>): (r: seq<SearchResult>)
    requires arrL <= arrR + 1 <= |arr|
    requires keysR < |keys| == |results|
    ensures |r| == |results|
    ensures forall k {:trigger r[k]} :: 0 <= k < |r| && !(keysL <= k <= keysR) ==> r[k] == results[k]
    ensures forall k {:trigger r[k]} :: keysL <= k <= keysR ==>
              && r[k] != Err(None)
              && (r[k].Ok? ==> r[k].value < |arr| && arr[r[k].value] == keys[k])
              && (r[k].Err? ==> r[k].error.value <= |arr|)
              && (Sorted(arr) && StrictlySorted(keys) && Window(arr, arrL, arrR, keys, keysL, keysR) ==>
                    Answers(arr, keys[k], r[k]))
    // The haystack never changes; its length is listed so that calls on literal key
    // bounds are unfolded only when a proof asks for them.
    decreases keysR - keysL + 1, |arr|
  {
    if keysR < keysL then
      results
    else
      var mid := GetMiddle(keysL, keysR);
      var o := SearchWindow(arr, arrL, arrR, keys[mid]);
      var pos := Position(o);
      StepKeepsWindow(arr, arrL, arrR, keys, keysL, keysR, mid);
      var left := MkbsAllBy(arr, arrL, SaturatingPred(pos), keys, keysL, mid - 1, results[mid := o]);
      MkbsAllBy(arr, if o.Ok? then pos + 1 else pos, arrR, keys, mid + 1, keysR, left)
  }

  /** `MKBS::mkbs_all` on a slice: pre-fill `[Err(None); N]` and search the whole haystack
      for the whole batch. The haystack and the batch must not be empty. No slot is left
      at `Err(None)`; a found index holds the key; a suggestion is at most the length. */
  function MkbsAll(arr: seq<int>, keys: seq<int>): (r: seq<SearchResult>)
    requires |arr| > 0 && |keys| > 0
    ensures |r| == |keys|
    ensures forall k :: 0 <= k < |r| ==> r[k] != Err(None)
    ensures forall k :: 0 <= k < |r| && r[k].Ok? ==> r[k].value < |arr| && arr[r[k].value] == keys[k]
    ensures forall k :: 0 <= k < |r| && r[k].Err? ==> r[k].error.value <= |arr|
  {
    MkbsAllBy(arr, 0, |arr| - 1, keys, 0, |keys| - 1, Unanswered(|keys|))
  }

  /** The library's promise for `mkbs_all`, as for the standard binary search: for a
      sorted haystack and strictly increasing keys, each key is reported `Ok` exactly
      when it is present, at an index holding it; otherwise with the insertion point.
      The reported positions never decrease along the batch. */
  lemma MkbsAllCorrect(arr: seq<int>, keys: seq<int>)
    requires |arr| > 0 && |keys| > 0
    requires Sorted(arr) && StrictlySorted(keys)
    ensures var r := MkbsAll(arr, keys);
            forall k :: 0 <= k < |keys| ==>
              && (r[k].Ok? <==> keys[k] in arr)
              && (r[k].Ok? ==> arr[r[k].value] == keys[k])
              && (r[k].Err? ==> IsInsertionPoint(arr, keys[k], r[k].error.value))
    ensures var r := MkbsAll(arr, keys);
            forall k1, k2 :: 0 <= k1 < k2 < |keys| ==> Position(r[k1]) <= Position(r[k2])
  {
    var r := MkbsAll(arr, keys);
    WindowInitial(arr, keys);
    forall k | 0 <= k < |keys|
      ensures Answers(arr, keys[k], r[k])
    {
    }
    forall k | 0 <= k < |keys|
      ensures r[k].Ok? <==> keys[k] in arr
    {
      AnswersFound(arr, keys[k], r[k]);
    }
    AnswersMonotone(arr, keys, r);
  }

  /** A key searched in the empty window past the haystack's end gets the suggestion
      `|arr|`, whatever slot of the batch it has. */
  lemma PastTheEndSuggested(arr: seq<int>, keys: seq<int>, results: seq<SearchResult>, k: nat)
    requires |arr| > 0 && k < |keys| == |results|
    ensures MkbsAllBy(arr, |arr|, |arr| - 1, keys, k, k, results) == results[k := Err(Some(|arr|))]
  {
    assert GetMiddle(k, k) == k;
    var updated := results[k := Err(Some(|arr|))];
    assert MkbsAllBy(arr, |arr|, |arr| - 1, keys, k, k as int - 1, updated) == updated;
    assert MkbsAllBy(arr, |arr|, |arr| - 1, keys, k + 1, k, updated) == updated;
  }

  /** Two adjacent keys equal to the haystack's last element, forming the key range of a
      call on the whole haystack: the first is found at the end, the second is searched
      in the empty window past it and gets the suggestion `|arr|`. */
  lemma AdjacentCopiesOfLast(arr: seq<int>, keys: seq<int>, results: seq<SearchResult>, i: nat, j: int)
    requires |arr| > 0 && j == i + 1 && j < |keys| == |results|
    requires keys[i] == keys[j] == arr[|arr| - 1]
    ensures MkbsAllBy(arr, 0, |arr| - 1, keys, i, j, results)
            == results[i := Ok(|arr| - 1)][j := Err(Some(|arr|))]
  {
    var last := |arr| - 1;
    assert GetMiddle(i, j) == i;
    LastNotAboveAt(arr, keys[i], 0, |arr|, |arr|);
    var o := SearchWindow(arr, 0, last, keys[i]);
    assert o == Ok(last);
    var first := results[i := o];
    assert MkbsAllBy(arr, 0, SaturatingPred(last), keys, i, i as int - 1, first) == first;
    PastTheEndSuggested(arr, keys, first, j);
  }

  /** Why the keys must be strictly increasing: with the haystack's last element given
      twice as the key batch, the first copy is found at the end, the second is searched
      in the empty window past it and is reported absent, with a suggestion, although it
      is in the haystack. For instance haystack `[5]`, keys `[5, 5]`. */
  lemma DuplicateKeysMisreported(arr: seq<int>, keys: seq<int>)
    requires |arr| > 0 && |keys| == 2 && keys[0] == keys[1] == arr[|arr| - 1]
    ensures keys[1] in arr
    ensures MkbsAll(arr, keys) == [Ok(|arr| - 1), Err(Some(|arr|))]
  {
    var none := Unanswered(|keys|);
    AdjacentCopiesOfLast(arr, keys, none, 0, |keys| - 1);
    assert none[0 := Ok(|arr| - 1)][|keys| - 1 := Err(Some(|arr|))] == [Ok(|arr| - 1), Err(Some(|arr|))];
  }
}

=== FILE: outcomes.dfy ===
/**
 The per-key outcome of a multi-key binary search, and what it means for such
 an outcome to be a correct answer about a sorted haystack.

 Rust's `Result<usize, Option<usize>>` becomes `Result<nat, Option<nat>>`:
 - `Ok(i)`          the key was found at index `i`;
 - `Err(Some(i))`   the key is absent and `i` is where it could be inserted;
 - `Err(None)`      no answer was computed (only the pruning search leaves these).
 */
module Outcomes {

  datatype Option<+T> = None | Some(value: T)

  datatype Result<+T, +E> = Ok(value: T) | Err(error: E)

  /** One slot of the result batch. */
  type SearchResult = Result<nat, Option<nat>>

  /** The pre-filled result batch `[Err(None); n]`. */
  function Unanswered(n: nat): (r: seq<SearchResult>)
    ensures |r| == n
    ensures forall k :: 0 <= k < n ==> r[k] == Err(None)
  {
    seq(n, _ => Err(None))
  }

  /** The index carried by a definite outcome: `pos.unwrap_or_else(|x| x.unwrap())`. */
  function Position(r: SearchResult): (p: nat)
    requires r != Err(None)
    ensures r == Ok(p) || r == Err(Some(p))
  {
    match r
    case Ok(i) => i
    case Err(Some(i)) => i
  }

  /** Non-decreasing order (the haystack may hold duplicates). */
  predicate Sorted(s: seq<int>) {
    forall i, j :: 0 <= i < j < |s| ==> s[i] <= s[j]
  }

  /** Strictly increasing order (the key batch, once deduplicated). */
  predicate StrictlySorted(s: seq<int>) {
    forall i, j :: 0 <= i < j < |s| ==> s[i] < s[j]
  }

  /** `i` is where `key` can be inserted keeping `s` sorted, and `key` is not in `s`:
      everything before `i` is smaller, everything from `i` on is larger. */
  predicate IsInsertionPoint(s: seq<int>, key: int, i: int) {
    && 0 <= i <= |s|
    && (forall j :: 0 <= j < i ==> s[j] < key)
    && (forall j :: i <= j < |s| ==> key < s[j])
  }

  /** `r` tells the truth about `key` in haystack `s`: a found index holds the key, a
      suggested index is an insertion point, and "no answer" is only given for absent keys. */
  predicate Answers(s: seq<int>, key: int, r: SearchResult) {
    match r
    case Ok(i) => i < |s| && s[i] == key
    case Err(Some(i)) => IsInsertionPoint(s, key, i)
    case Err(None) => key !in s
  }

  /** A truthful outcome reports `Ok` exactly when the key is present. */
  lemma AnswersFound(s: seq<int>, key: int, r: SearchResult)
    requires Answers(s, key, r)
    ensures r.Ok? <==> key in s
  {
  }

  /** A truthful definite outcome splits a sorted haystack at its position: elements
      below the key lie before it, elements above the key lie at or after it. */
  lemma AnswerSplits(s: seq<int>, key: int, r: SearchResult, j: int)
    requires Sorted(s) && Answers(s, key, r) && r != Err(None)
    requires 0 <= j < |s|
    ensures Position(r) <= |s|
    ensures s[j] < key ==> j < Position(r)
    ensures key < s[j] ==> Position(r) <= j
  {
    if r.Ok? {
      assert s[r.value] == key;
    }
  }

  /** In a strictly sorted haystack equal elements sit at the same index. */
  lemma StrictlySortedInjective(s: seq<int>, i: int, j: int)
    requires StrictlySorted(s) && 0 <= i < |s| && 0 <= j < |s|
    ensures s[i] == s[j] <==> i == j
  {
  }

  /** A key has at most one insertion point, whether or not the haystack is sorted. */
  lemma InsertionPointUnique(s: seq<int>, key: int, i: int, j: int)
    requires IsInsertionPoint(s, key, i) && IsInsertionPoint(s, key, j)
    ensures i == j
  {
    // The element at the smaller of the two points is above the key, so it cannot lie
    // before the other point.
    var m := if i < j then i else j;
    if m < |s| {
      assert key < s[m];
    }
  }

  /** In a strictly sorted haystack a truthful definite outcome is unique. */
  lemma {:induction false} AnswerUnique(s: seq<int>, key: int, r1: SearchResult, r2: SearchResult)
    requires StrictlySorted(s)
    requires Answers(s, key, r1) && Answers(s, key, r2)
    requires r1 != Err(None) && r2 != Err(None)
    ensures r1 == r2
  {
    AnswersFound(s, key, r1);
    AnswersFound(s, key, r2);
    if r1.Ok? {
      StrictlySortedInjective(s, r1.value, r2.value);
    } else {
      var p1, p2 := Position(r1), Position(r2);
      var m := if p1 < p2 then p1 else p2;
      if m < |s| {
        AnswerSplits(s, key, r1, m);
        AnswerSplits(s, key, r2, m);
      }
    }
  }

  /** Two truthful definite outcomes for keys `a < b` are in order. */
  lemma {:induction false} AnswersOrdered(s: seq<int>, a: int, ra: SearchResult, b: int, rb: SearchResult)
    requires Sorted(s) && a < b
    requires Answers(s, a, ra) && Answers(s, b, rb)
    requires ra != Err(None) && rb != Err(None)
    ensures Position(ra) <= Position(rb)
  {
    var pb := Position(rb);
    if pb < |s| {
      AnswerSplits(s, b, rb, pb);
      AnswerSplits(s, a, ra, pb);
    }
  }
  /** Truthful definite outcomes for strictly increasing keys have non-decreasing positions. */
  lemma {:induction false} AnswersMonotone(s: seq<int>, keys: seq<int>, r: seq<SearchResult>)
    requires Sorted(s) && StrictlySorted(keys) && |r| == |keys|
    requires forall k :: 0 <= k < |r| ==> Answers(s, keys[k], r[k])
    ensures forall k1, k2 :: 0 <= k1 < k2 < |r| && r[k1] != Err(None) && r[k2] != Err(None) ==>
              Position(r[k1]) <= Position(r[k2])
  {
    forall k1, k2 | 0 <= k1 < k2 < |r| && r[k1] != Err(None) && r[k2] != Err(None)
      ensures Position(r[k1]) <= Position(r[k2])
    {
      AnswersOrdered(s, keys[k1], r[k1], keys[k2], r[k2]);
    }
  }
}

=== FILE: pruned.dfy ===
/**
 `mkbs`: the pruning multi-key binary search. Before searching its middle key a call
 compares that key with the two ends of its haystack window; a key below the window's
 first element or above its last one is not searched, and with it the half of the key
 range on its far side is dropped, those slots keeping their pre-filled `Err(None)`.

 This is the routine with its two out-of-range steps repaired (see `PrunedAsWritten`
 for the code as written): the left recursion uses `pos.saturating_sub(1)`, as the
 exhaustive search does, and a window starting past the end of the haystack ends the
 recursion, since every key left is above the whole haystack.
 */
module Pruned {
  import opened Outcomes
  import opened StdSearch
  import opened SearchStep
  import Exhaustive

  /** Pruning below: the middle key is below the window's first element. Then under the
      invariant no key of the range up to the middle one is in the haystack, and the
      keys after it keep the invariant with the same window. */
  lemma PruneBelow(arr: seq<int>, arrL: nat, arrR: nat, keys: seq<int>, keysL: nat, keysR: int, mid: nat)
    requires arrL <= arrR + 1 <= |arr| && keysL <= mid <= keysR < |keys|
    requires arrL < |arr| && keys[mid] < arr[arrL]
    ensures Sorted(arr) && StrictlySorted(keys) && Window(arr, arrL, arrR, keys, keysL, keysR) ==>
              && (forall k :: keysL <= k <= mid ==> keys[k] !in arr)
              && Window(arr, arrL, arrR, keys, mid + 1, keysR)
  {
    if Sorted(arr) && StrictlySorted(keys) && Window(arr, arrL, arrR, keys, keysL, keysR) {
      forall k | keysL <= k <= mid
        ensures keys[k] !in arr
      {
        forall j | 0 <= j < |arr|
          ensures arr[j] != keys[k]
        {
          if j >= arrL {
            assert keys[k] <= keys[mid] < arr[arrL] <= arr[j];
          } else {
            assert arr[j] < keys[keysL] <= keys[k];
          }
        }
      }
      WindowShrink(arr, arrL, arrR, keys, keysL, keysR, mid + 1, keysR);
    }
  }

  /** Pruning above: the middle key is above the window's last element. Then under the
      invariant no key of the range from the middle one on is in the haystack, and the
      keys before it keep the invariant with the same window. */
  lemma PruneAbove(arr: seq<int>, arrL: nat, arrR: nat, keys: seq<int>, keysL: nat, keysR: int, mid: nat)
    requires arrL <= arrR + 1 <= |arr| && keysL <= mid <= keysR < |keys|
    requires keys[mid] > arr[arrR]
    ensures Sorted(arr) && StrictlySorted(keys) && Window(arr, arrL, arrR, keys, keysL, keysR) ==>
              && (forall k :: mid <= k <= keysR ==> keys[k] !in arr)
              && Window(arr, arrL, arrR, keys, keysL, mid - 1)
  {
    if Sorted(arr) && StrictlySorted(keys) && Window(arr, arrL, arrR, keys, keysL, keysR) {
      forall k | mid <= k <= keysR
        ensures keys[k] !in arr
      {
        forall j | 0 <= j < |arr|
          ensures arr[j] != keys[k]
        {
          if j <= arrR {
            assert arr[j] <= arr[arrR] < keys[mid] <= keys[k];
          } else {
            assert keys[k] <= keys[keysR] < arr[j];
          }
        }
      }
      WindowShrink(arr, arrL, arrR, keys, keysL, keysR, keysL, mid - 1);
    }
  }

  /** A key not above the window's last element, searched in a window starting inside
      the haystack, is never suggested past the haystack's end. */
  lemma SearchInside(arr: seq<int>, arrL: nat, arrR: nat, key: int)
    requires arrL <= arrR + 1 <= |arr| && arrL < |arr| && key <= arr[arrR]
    ensures SearchWindow(arr, arrL, arrR, key).Err? ==> SearchWindow(arr, arrL, arrR, key).error.value < |arr|
  {
    var r := LastNotAbove(arr, key, arrL, arrR + 1 - arrL);
    if r.Err? {
      LastNotAboveAfter(arr, key, arrL, arrR + 1 - arrL, r.error);
    }
  }

  /** A window starting past the end of the haystack: under the invariant no key of
      the range is in the haystack. */
  lemma PastTheEnd(arr: seq<int>, arrL: nat, arrR: nat, keys: seq<int>, keysL: nat, keysR: int)
    requires arrL == |arr| && keysR < |keys|
    ensures StrictlySorted(keys) && Window(arr, arrL, arrR, keys, keysL, keysR) ==>
              forall k :: keysL <= k <= keysR ==> keys[k] !in arr
  {
    if StrictlySorted(keys) && Window(arr, arrL, arrR, keys, keysL, keysR) {
      forall k | keysL <= k <= keysR
        ensures keys[k] !in arr
      {
        WindowKey(arr, arrL, arrR, keys, keysL, keysR, k);
      }
    }
  }

  /** `_mkbs_by`, repaired. Slots outside the key range are left as they were. A slot
      of the range either keeps its value or gets a definite outcome, a found index
      holding its key and a suggestion inside the haystack. When the range invariant
      holds for a sorted haystack and strictly increasing keys, a kept slot belongs to
      an absent key and every new outcome is a truthful answer. */
  function MkbsBy(arr: seq<int>, arrL: nat, arrR: nat, keys: seq<int>, keysL: nat, keysR: int,
                  results: seq<SearchResult>): (r: seq<SearchResult>)
    requires arrL <= arrR + 1 <= |arr|
    requires keysR < |keys| == |results|
    ensures |r| == |results|
    ensures forall k {:trigger r[k]} :: 0 <= k < |r| && !(keysL <= k <= keysR) ==> r[k] == results[k]
    ensures forall k {:trigger r[k]} :: keysL <= k <= keysR ==>
              && (r[k] == results[k]
                  || (&& r[k] != Err(None)
                      && (r[k].Ok? ==> r[k].value < |arr| && arr[r[k].value] == keys[k])
                      && (r[k].Err? ==> r[k].error.value < |arr|)))
              && (Sorted(arr) && StrictlySorted(keys) && Window(arr, arrL, arrR, keys, keysL, keysR) ==>
                    || (r[k] == results[k] && keys[k] !in arr)
                    || (r[k] != Err(None) && Answers(arr, keys[k], r[k])))
    // The haystack never changes; its length is listed so that calls on literal key
    // bounds are unfolded only when a proof asks for them.
    decreases keysR - keysL + 1, |arr|
  {
    if keysR < keysL then
      results
    else if arrL == |arr| then
      PastTheEnd(arr, arrL, arrR, keys, keysL, keysR);
      results
    else
      var mid := GetMiddle(keysL, keysR);
      if keys[mid] < arr[arrL] then
        PruneBelow(arr, arrL, arrR, keys, keysL, keysR, mid);
        MkbsBy(arr, arrL, arrR, keys, mid + 1, keysR, results)
      else if keys[mid] > arr[arrR] then
        PruneAbove(arr, arrL, arrR, keys, keysL, keysR, mid);
        MkbsBy(arr, arrL, arrR, keys, keysL, mid - 1, results)
      else
        var o := SearchWindow(arr, arrL, arrR, keys[mid]);
        var pos := Position(o);
        SearchInside(arr, arrL, arrR, keys[mid]);
        StepKeepsWindow(arr, arrL, arrR, keys, keysL, keysR, mid);
        var left := MkbsBy(arr, arrL, SaturatingPred(pos), keys, keysL, mid - 1, results[mid := o]);
        MkbsBy(arr, if o.Ok? then pos + 1 else pos, arrR, keys, mid + 1, keysR, left)
  }

  /** `MKBS::mkbs` on a slice: pre-fill `[Err(None); N]` and search the whole haystack
      for the whole batch. The haystack and the batch must not be empty. A slot is left
      at `Err(None)` or holds a definite outcome, a found index holding its key and a
      suggestion inside the haystack. */
  function Mkbs(arr: seq<int>, keys: seq<int>): (r: seq<SearchResult>)
    requires |arr| > 0 && |keys| > 0
    ensures |r| == |keys|
    ensures forall k :: 0 <= k < |r| && r[k].Ok? ==> r[k].value < |arr| && arr[r[k].value] == keys[k]
    ensures forall k :: 0 <= k < |r| && r[k].Err? && r[k].error.Some? ==> r[k].error.value < |arr|
  {
    MkbsBy(arr, 0, |arr| - 1, keys, 0, |keys| - 1, Unanswered(|keys|))
  }

  /** The pruning is sound: for a sorted haystack and strictly increasing keys, a key is
      reported `Ok` exactly when it is present, at an index holding it; a key left at
      `Err(None)` is absent; a suggestion is a true insertion point inside the haystack.
      The positions of the answered keys never decrease along the batch. */
  lemma MkbsCorrect(arr: seq<int>, keys: seq<int>)
    requires |arr| > 0 && |keys| > 0
    requires Sorted(arr) && StrictlySorted(keys)
    ensures var r := Mkbs(arr, keys);
            forall k :: 0 <= k < |keys| ==>
              && (r[k].Ok? <==> keys[k] in arr)
              && (r[k].Ok? ==> arr[r[k].value] == keys[k])
              && (r[k] == Err(None) ==> keys[k] !in arr)
              && (r[k].Err? && r[k].error.Some? ==>
                    r[k].error.value < |arr| && IsInsertionPoint(arr, keys[k], r[k].error.value))
    ensures var r := Mkbs(arr, keys);
            forall k1, k2 :: 0 <= k1 < k2 < |keys| && r[k1] != Err(None) && r[k2] != Err(None) ==>
              Position(r[k1]) <= Position(r[k2])
  {
    var r := Mkbs(arr, keys);
    WindowInitial(arr, keys);
    forall k | 0 <= k < |keys|
      ensures Answers(arr, keys[k], r[k])
    {
    }
    forall k | 0 <= k < |keys|
      ensures r[k].Ok? <==> keys[k] in arr
    {
      AnswersFound(arr, keys[k], r[k]);
    }
    AnswersMonotone(arr, keys, r);
  }

  /** The two searches agree: for a sorted haystack and strictly increasing keys, the
      keys found by the two are the same, and a key `mkbs` answers with an insertion
      point gets the same insertion point from `mkbs_all`. */
  lemma MkbsAgreesWithMkbsAll(arr: seq<int>, keys: seq<int>)
    requires |arr| > 0 && |keys| > 0
    requires Sorted(arr) && StrictlySorted(keys)
    ensures var r, all := Mkbs(arr, keys), Exhaustive.MkbsAll(arr, keys);
            forall k :: 0 <= k < |keys| ==>
              && (r[k].Ok? <==> all[k].Ok?)
              && (r[k].Err? && r[k] != Err(None) ==> r[k] == all[k])
  {
    var r, all := Mkbs(arr, keys), Exhaustive.MkbsAll(arr, keys);
    MkbsCorrect(arr, keys);
    Exhaustive.MkbsAllCorrect(arr, keys);
    forall k | 0 <= k < |keys| && r[k].Err? && r[k] != Err(None)
      ensures r[k] == all[k]
    {
      InsertionPointUnique(arr, keys[k], r[k].error.value, all[k].error.value);
    }
  }

  /** With a strictly sorted haystack the two searches also find a present key at the
      same index, so every key `mkbs` answers gets the same answer from `mkbs_all`. */
  lemma MkbsFindsLikeMkbsAll(arr: seq<int>, keys: seq<int>)
    requires |arr| > 0 && |keys| > 0
    requires StrictlySorted(arr) && StrictlySorted(keys)
    ensures var r, all := Mkbs(arr, keys), Exhaustive.MkbsAll(arr, keys);
            forall k :: 0 <= k < |keys| && r[k].Ok? ==> r[k] == all[k]
  {
    var r, all := Mkbs(arr, keys), Exhaustive.MkbsAll(arr, keys);
    assert Sorted(arr);
    MkbsCorrect(arr, keys);
    Exhaustive.MkbsAllCorrect(arr, keys);
    forall k | 0 <= k < |keys| && r[k].Ok?
      ensures r[k] == all[k]
    {
      StrictlySortedInjective(arr, r[k].value, all[k].value);
    }
  }
}

=== FILE: pruned_as_written.dfy ===
/**
 `mkbs` as written, run as a debug build would run it: a slice index out of
 bounds and an unsigned subtraction below zero stop the program (Rust panics), and so
 does the `debug_assert_ne!(N, 0)` of the entry point. Two of these are reachable with
 a sorted haystack and strictly increasing keys; `Pruned` holds the repaired routine.
 */
module PrunedAsWritten {
  import opened Outcomes
  import opened StdSearch
  import opened SearchStep
  import Pruned

  /** Why a debug build stops. */
  datatype Fault = IndexOutOfBounds | SubtractOverflow | EmptyBatch

  /** How a run ends: with the result batch, or with a panic. */
  datatype Run = Returned(results: seq<SearchResult>) | Panicked(fault: Fault)

  /** `_mkbs_by` as written. `arr[arr_l]` panics once the window starts past the end of
      the haystack, and `pos - 1` panics when the middle key sits at index 0. A panic of
      the left recursion ends the run. When the run returns, slots outside the key range
      are unchanged and a found index holds its key; `AsWrittenTruthful` shows the
      batch is also truthful under the range invariant. */
  function MkbsByAsWritten(arr: seq<int>, arrL: nat, arrR: nat, keys: seq<int>, keysL: nat, keysR: int,
                           results: seq<SearchResult>): (r: Run)
    requires arrL <= arrR + 1 <= |arr|
    requires keysR < |keys| == |results|
    ensures r.Panicked? ==> r.fault != EmptyBatch
    ensures r.Returned? ==> |r.results| == |results|
    ensures r.Returned? ==> forall k {:trigger r.results[k]} :: 0 <= k < |results| && !(keysL <= k <= keysR) ==> r.results[k] == results[k]
    ensures r.Returned? ==> forall k {:trigger r.results[k]} :: 0 <= k < |results| && r.results[k].Ok? && r.results[k] != results[k] ==>
              r.results[k].value < |arr| && arr[r.results[k].value] == keys[k]
    // The haystack never changes; its length is listed so that calls on literal key
    // bounds are unfolded only when a proof asks for them.
    decreases keysR - keysL + 1, |arr|
  {
    if keysR < keysL then
      Returned(results)
    else
      var mid := GetMiddle(keysL, keysR);
      if arrL == |arr| then
        Panicked(IndexOutOfBounds)
      else if keys[mid] < arr[arrL] then
        MkbsByAsWritten(arr, arrL, arrR, keys, mid + 1, keysR, results)
      else if keys[mid] > arr[arrR] then
        MkbsByAsWritten(arr, arrL, arrR, keys, keysL, mid - 1, results)
      else
        var o := SearchWindow(arr, arrL, arrR, keys[mid]);
        var pos := Position(o);
        if pos == 0 then
          Panicked(SubtractOverflow)
        else
          var left := MkbsByAsWritten(arr, arrL, pos - 1, keys, keysL, mid - 1, results[mid := o]);
          if left.Panicked? then left
          else MkbsByAsWritten(arr, if o.Ok? then pos + 1 else pos, arrR, keys, mid + 1, keysR, left.results)
  }

  /** A slot after a call: kept as it was for an absent key, or holding a truthful
      definite answer. */
  predicate SlotTruthful(arr: seq<int>, key: int, before: SearchResult, after: SearchResult) {
    || (after == before && key !in arr)
    || (after != Err(None) && Answers(arr, key, after))
  }

  /** A run over the key range `keysL..=keysR`, started on batch `results`, panicked or
      left every slot of the range truthful. */
  predicate RunTruthful(arr: seq<int>, keys: seq<int>, keysL: nat, keysR: int, results: seq<SearchResult>, run: Run) {
    run.Returned? ==>
      && |run.results| == |results|
      && keysR < |keys| == |results|
      && forall k {:trigger run.results[k]} :: keysL <= k <= keysR ==>
           SlotTruthful(arr, keys[k], results[k], run.results[k])
  }

  /** What one call of the recursion can rely on when its window and key range satisfy
      the range invariant: a middle key below the window's first element is absent
      together with every key before it, and the keys after it keep the invariant; a
      middle key above the window's last element is absent together with every key after
      it, and the keys before it keep the invariant; a searched middle key gets a truthful
      outcome, and both recursive calls start inside the invariant. */
  predicate StepSound(arr: seq<int>, arrL: nat, arrR: nat, keys: seq<int>, keysL: nat, keysR: int) {
    arrL <= arrR + 1 <= |arr| && keysL <= keysR < |keys| && Window(arr, arrL, arrR, keys, keysL, keysR) ==>
      var mid := GetMiddle(keysL, keysR);
      var o := SearchWindow(arr, arrL, arrR, keys[mid]);
      && (arrL < |arr| && keys[mid] < arr[arrL] ==>
            && (forall k :: keysL <= k <= mid ==> keys[k] !in arr)
            && Window(arr, arrL, arrR, keys, mid + 1, keysR))
      && (keys[mid] > arr[arrR] ==>
            && (forall k :: mid <= k <= keysR ==> keys[k] !in arr)
            && Window(arr, arrL, arrR, keys, keysL, mid - 1))
      && Answers(arr, keys[mid], o)
      && Window(arr, arrL, SaturatingPred(Position(o)), keys, keysL, mid - 1)
      && Window(arr, if o.Ok? then Position(o) + 1 else Position(o), arrR, keys, mid + 1, keysR)
  }

  /** Every call of the recursion can rely on its step, whatever its window and key range. */
  predicate StepsSound(arr: seq<int>, keys: seq<int>) {
    forall arrL: nat, arrR: nat, keysL: nat, keysR: int {:trigger StepSound(arr, arrL, arrR, keys, keysL, keysR)} |
      arrL <= arrR + 1 <= |arr| && keysL <= keysR < |keys| :: StepSound(arr, arrL, arrR, keys, keysL, keysR)
  }

  /** A sorted haystack and strictly increasing keys make every step sound. */
  lemma OrderedStepsSound(arr: seq<int>, keys: seq<int>)
    ensures Sorted(arr) && StrictlySorted(keys) ==> StepsSound(arr, keys)
  {
    if Sorted(arr) && StrictlySorted(keys) {
    forall arrL: nat, arrR: nat, keysL: nat, keysR: int
      ensures StepSound(arr, arrL, arrR, keys, keysL, keysR)
    {
      if arrL <= arrR + 1 <= |arr| && keysL <= keysR < |keys| && Window(arr, arrL, arrR, keys, keysL, keysR) {
        var mid := GetMiddle(keysL, keysR);
        if arrL < |arr| && keys[mid] < arr[arrL] {
          Pruned.PruneBelow(arr, arrL, arrR, keys, keysL, keysR, mid);
        }
        if keys[mid] > arr[arrR] {
          Pruned.PruneAbove(arr, arrL, arrR, keys, keysL, keysR, mid);
        }
        StepKeepsWindow(arr, arrL, arrR, keys, keysL, keysR, mid);
      }
    }
    }
  }

  /** `_mkbs_by` as written, when it returns, tells the truth: when every step is sound
      and the range invariant holds, each slot of the key range is kept for an absent key
      or gets a truthful answer. */
  lemma {:induction false} AsWrittenTruthful(arr: seq<int>, arrL: nat, arrR: nat, keys: seq<int>, keysL: nat, keysR: int,
                                             results: seq<SearchResult>)
    requires arrL <= arrR + 1 <= |arr|
    requires keysR < |keys| == |results|
    ensures StepsSound(arr, keys) && Window(arr, arrL, arrR, keys, keysL, keysR) ==>
              RunTruthful(arr, keys, keysL, keysR, results, MkbsByAsWritten(arr, arrL, arrR, keys, keysL, keysR, results))
    decreases keysR - keysL + 1, 1
  {
    var top := MkbsByAsWritten(arr, arrL, arrR, keys, keysL, keysR, results);
    if !(StepsSound(arr, keys) && Window(arr, arrL, arrR, keys, keysL, keysR)) {
    } else if keysR < keysL {
      assert top == Returned(results);
    } else if arrL == |arr| {
      assert top.Panicked?;
    } else {
      var mid := GetMiddle(keysL, keysR);
      if keys[mid] < arr[arrL] || keys[mid] > arr[arrR] {
        PruneCaseTruthful(arr, arrL, arrR, keys, keysL, keysR, results);
      } else {
        SearchCaseTruthful(arr, arrL, arrR, keys, keysL, keysR, results);
      }
    }
  }

  /** `AsWrittenTruthful` for a call that prunes its middle key. */
  lemma {:induction false} PruneCaseTruthful(arr: seq<int>, arrL: nat, arrR: nat, keys: seq<int>, keysL: nat, keysR: int,
                                             results: seq<SearchResult>)
    requires arrL <= arrR + 1 <= |arr| && arrL < |arr|
    requires keysL <= keysR < |keys| == |results|
    requires keys[GetMiddle(keysL, keysR)] < arr[arrL] || keys[GetMiddle(keysL, keysR)] > arr[arrR]
    requires StepsSound(arr, keys) && Window(arr, arrL, arrR, keys, keysL, keysR)
    ensures RunTruthful(arr, keys, keysL, keysR, results, MkbsByAsWritten(arr, arrL, arrR, keys, keysL, keysR, results))
    decreases keysR - keysL + 1, 0
  {
    var top := MkbsByAsWritten(arr, arrL, arrR, keys, keysL, keysR, results);
    var mid := GetMiddle(keysL, keysR);
    assert StepSound(arr, arrL, arrR, keys, keysL, keysR);
    if keys[mid] < arr[arrL] {
      AsWrittenTruthful(arr, arrL, arrR, keys, mid + 1, keysR, results);
      var run := MkbsByAsWritten(arr, arrL, arrR, keys, mid + 1, keysR, results);
      assert top == run;
      PruneTruthful(arr, keys, keysL, keysR, results, mid + 1, keysR, run);
    } else {
      AsWrittenTruthful(arr, arrL, arrR, keys, keysL, mid as int - 1, results);
      var run := MkbsByAsWritten(arr, arrL, arrR, keys, keysL, mid as int - 1, results);
      assert top == run;
      PruneTruthful(arr, keys, keysL, keysR, results, keysL, mid as int - 1, run);
    }
  }

  /** `AsWrittenTruthful` for a call that searches its middle key. */
  lemma {:induction false} SearchCaseTruthful(arr: seq<int>, arrL: nat, arrR: nat, keys: seq<int>, keysL: nat, keysR: int,
                                              results: seq<SearchResult>)
    requires arrL <= arrR + 1 <= |arr| && arrL < |arr|
    requires keysL <= keysR < |keys| == |results|
    requires arr[arrL] <= keys[GetMiddle(keysL, keysR)] <= arr[arrR]
    requires StepsSound(arr, keys) && Window(arr, arrL, arrR, keys, keysL, keysR)
    ensures RunTruthful(arr, keys, keysL, keysR, results, MkbsByAsWritten(arr, arrL, arrR, keys, keysL, keysR, results))
    decreases keysR - keysL + 1, 0
  {
    var top := MkbsByAsWritten(arr, arrL, arrR, keys, keysL, keysR, results);
    var mid := GetMiddle(keysL, keysR);
    var o := SearchWindow(arr, arrL, arrR, keys[mid]);
    var pos := Position(o);
    if pos == 0 {
      assert top.Panicked?;
    } else {
      assert StepSound(arr, arrL, arrR, keys, keysL, keysR);
      assert SaturatingPred(pos) == pos - 1;
      var left := MkbsByAsWritten(arr, arrL, pos - 1, keys, keysL, mid as int - 1, results[mid := o]);
      AsWrittenTruthful(arr, arrL, pos - 1, keys, keysL, mid as int - 1, results[mid := o]);
      MkbsByAsWrittenSearchStep(arr, arrL, arrR, keys, keysL, keysR, results);
      if left.Returned? {
        var nextL := if o.Ok? then pos + 1 else pos;
        var right := MkbsByAsWritten(arr, nextL, arrR, keys, mid + 1, keysR, left.results);
        AsWrittenTruthful(arr, nextL, arrR, keys, mid + 1, keysR, left.results);
        if right.Returned? {
          SearchTruthful(arr, keys, keysL, keysR, results, mid, o, left, right);
        }
      }
    }
  }

  /** A call that searches its middle key and finds it past index 0, spelled out: the
      left recursion, then, unless it panicked, the right one on its batch. */
  lemma {:induction false} MkbsByAsWrittenSearchStep(arr: seq<int>, arrL: nat, arrR: nat, keys: seq<int>, keysL: nat, keysR: int,
                                                     results: seq<SearchResult>)
    requires arrL <= arrR + 1 <= |arr| && arrL < |arr|
    requires keysL <= keysR < |keys| == |results|
    requires arr[arrL] <= keys[GetMiddle(keysL, keysR)] <= arr[arrR]
    requires Position(SearchWindow(arr, arrL, arrR, keys[GetMiddle(keysL, keysR)])) > 0
    ensures var mid := GetMiddle(keysL, keysR);
            var o := SearchWindow(arr, arrL, arrR, keys[mid]);
            var pos := Position(o);
            var left := MkbsByAsWritten(arr, arrL, pos - 1, keys, keysL, mid as int - 1, results[mid := o]);
            MkbsByAsWritten(arr, arrL, arrR, keys, keysL, keysR, results)
            == if left.Panicked? then left
               else MkbsByAsWritten(arr, if o.Ok? then pos + 1 else pos, arrR, keys, mid + 1, keysR, left.results)
  {
  }

  /** The pruning steps of `AsWrittenTruthful`: a run over the sub-range `lo..=hi` that
      leaves that sub-range truthful and every other slot as it was, where the keys of
      the range outside the sub-range are absent, leaves the whole range truthful. */
  lemma {:induction false} PruneTruthful(arr: seq<int>, keys: seq<int>, keysL: nat, keysR: int, results: seq<SearchResult>,
                                         lo: nat, hi: int, run: Run)
    requires keysL <= lo && hi <= keysR < |keys| == |results|
    requires forall k :: keysL <= k <= keysR && !(lo <= k <= hi) ==> keys[k] !in arr
    requires RunTruthful(arr, keys, lo, hi, results, run)
    requires run.Returned? ==> forall k {:trigger run.results[k]} :: 0 <= k < |run.results| && !(lo <= k <= hi) ==>
               run.results[k] == results[k]
    ensures RunTruthful(arr, keys, keysL, keysR, results, run)
  {
    if run.Returned? {
      forall k | keysL <= k <= keysR
        ensures SlotTruthful(arr, keys[k], results[k], run.results[k])
      {
        if !(lo <= k <= hi) {
          assert run.results[k] == results[k];
        }
      }
    }
  }

  /** The search step of `AsWrittenTruthful`: the middle slot gets a truthful definite
      outcome, the left run leaves its range truthful and every other slot as it was, and
      the right run, started on the left run's batch, does the same for its own range;
      then the whole range is truthful. */
  lemma {:induction false} SearchTruthful(arr: seq<int>, keys: seq<int>, keysL: nat, keysR: int, results: seq<SearchResult>,
                                          mid: nat, o: SearchResult, left: Run, right: Run)
    requires keysL <= mid <= keysR < |keys| == |results|
    requires o != Err(None) && Answers(arr, keys[mid], o)
    requires left.Returned? && RunTruthful(arr, keys, keysL, mid as int - 1, results[mid := o], left)
    requires forall k {:trigger left.results[k]} :: 0 <= k < |left.results| && !(keysL <= k < mid) ==>
               left.results[k] == results[mid := o][k]
    requires right.Returned? && RunTruthful(arr, keys, mid + 1, keysR, left.results, right)
    requires forall k {:trigger right.results[k]} :: 0 <= k < |right.results| && !(mid < k <= keysR) ==>
               right.results[k] == left.results[k]
    ensures RunTruthful(arr, keys, keysL, keysR, results, right)
  {
    forall k | keysL <= k <= keysR
      ensures SlotTruthful(arr, keys[k], results[k], right.results[k])
    {
      if k < mid {
        assert right.results[k] == left.results[k];
        assert SlotTruthful(arr, keys[k], results[mid := o][k], left.results[k]);
      } else if k == mid {
        assert right.results[k] == left.results[k] == o;
      } else {
        assert left.results[k] == results[k];
        assert SlotTruthful(arr, keys[k], left.results[k], right.results[k]);
      }
    }
  }

  /** `MKBS::mkbs` as written: the debug assertion rejects an empty batch, and
      `self.len() - 1` panics on an empty haystack. A returned batch for a sorted
      haystack and strictly increasing keys holds a truthful answer in every slot
      it wrote and leaves `Err(None)` only for absent keys. */
  function MkbsAsWritten(arr: seq<int>, keys: seq<int>): (r: Run)
    ensures |keys| == 0 <==> r == Panicked(EmptyBatch)
    ensures |keys| > 0 && |arr| == 0 ==> r == Panicked(SubtractOverflow)
    ensures r.Returned? ==> |r.results| == |keys|
    ensures r.Returned? && Sorted(arr) && StrictlySorted(keys) ==>
              forall k :: 0 <= k < |keys| ==> Answers(arr, keys[k], r.results[k])
  {
    if |keys| == 0 then
      Panicked(EmptyBatch)
    else if |arr| == 0 then
      Panicked(SubtractOverflow)
    else
      WindowInitial(arr, keys);
      OrderedStepsSound(arr, keys);
      AsWrittenTruthful(arr, 0, |arr| - 1, keys, 0, |keys| - 1, Unanswered(|keys|));
      MkbsByAsWritten(arr, 0, |arr| - 1, keys, 0, |keys| - 1, Unanswered(|keys|))
  }

  /** Wherever `mkbs` as written returns, it keeps the library's promise: for a sorted
      haystack and strictly increasing keys, a key is reported `Ok` exactly when it is
      present, at an index holding it; a key left at `Err(None)` is absent; a suggestion
      is a true insertion point. */
  lemma MkbsAsWrittenCorrect(arr: seq<int>, keys: seq<int>)
    requires Sorted(arr) && StrictlySorted(keys)
    requires MkbsAsWritten(arr, keys).Returned?
    ensures var r := MkbsAsWritten(arr, keys).results;
            forall k :: 0 <= k < |keys| ==>
              && (r[k].Ok? <==> keys[k] in arr)
              && (r[k].Ok? ==> arr[r[k].value] == keys[k])
              && (r[k] == Err(None) ==> keys[k] !in arr)
              && (r[k].Err? && r[k].error.Some? ==> IsInsertionPoint(arr, keys[k], r[k].error.value))
  {
    var r := MkbsAsWritten(arr, keys).results;
    forall k | 0 <= k < |keys|
      ensures r[k].Ok? <==> keys[k] in arr
    {
      AnswersFound(arr, keys[k], r[k]);
    }
  }

  /** A middle key equal to the haystack's first element is found at index 0, and the
      code as written then computes `0 - 1`: for instance haystack `[5]`, keys `[5]`.
      The first element occurs once, so any index the standard search may return for it
      is 0. */
  lemma KeyAtFrontPanics(arr: seq<int>, keys: seq<int>)
    requires |arr| > 0 && |keys| > 0 && Sorted(arr)
    requires |arr| == 1 || arr[0] < arr[1]
    requires keys[GetMiddle(0, |keys| - 1)] == arr[0]
    ensures MkbsAsWritten(arr, keys) == Panicked(SubtractOverflow)
  {
    var mid := GetMiddle(0, |keys| - 1);
    LastNotAboveAt(arr, keys[mid], 0, |arr|, 1);
  }

  /** A first element repeated in the haystack is found at its last copy, so the left
      recursion gets a window and the run returns: haystack `[5, 5]`, keys `[5]` give
      `[Ok(1)]`. */
  lemma RepeatedFrontKeyReturns()
    ensures MkbsAsWritten([5, 5], [5]) == Returned([Ok(1)])
  {
    LastNotAboveAt([5, 5], 5, 0, 2, 2);
    assert SearchWindow([5, 5], 0, 1, 5) == Ok(1);
    assert MkbsByAsWritten([5, 5], 0, 0, [5], 0, -1, [Ok(1)]) == Returned([Ok(1)]);
    assert MkbsByAsWritten([5, 5], 2, 1, [5], 1, 0, [Ok(1)]) == Returned([Ok(1)]);
  }

  /** Two adjacent keys forming the key range of a call on the whole haystack, the first
      equal to the haystack's last element, which is not below its first: that key is
      found at the end (at the last copy, should the haystack repeat it), the next key is
      then looked up with the window starting past the end, and `arr[arr_l]` is out of
      bounds. */
  lemma FoundAtEndThenPanics(arr: seq<int>, keys: seq<int>, results: seq<SearchResult>, i: nat, j: int)
    requires |arr| >= 2 && j == i + 1 && j < |keys| == |results|
    requires keys[i] == arr[|arr| - 1] && arr[0] <= arr[|arr| - 1]
    ensures MkbsByAsWritten(arr, 0, |arr| - 1, keys, i, j, results) == Panicked(IndexOutOfBounds)
  {
    var last := |arr| - 1;
    assert GetMiddle(i, j) == i;
    LastNotAboveAt(arr, keys[i], 0, |arr|, |arr|);
    var o := SearchWindow(arr, 0, last, keys[i]);
    assert o == Ok(last);
    var first := results[i := o];
    assert MkbsByAsWritten(arr, 0, last - 1, keys, i, i as int - 1, first) == Returned(first);
    assert MkbsByAsWritten(arr, |arr|, last, keys, j, j, first) == Panicked(IndexOutOfBounds);
  }

  /** A whole batch of two keys, the first equal to the haystack's last element, which is
      not below its first, stops the code as written with `arr[arr_l]` out of bounds. For
      instance haystack `[1, 2, 3]`, keys `[3, 4]`, or haystack `[1, 2, 3, 4, 4]`, keys
      `[4, 5]`. */
  lemma KeyAtEndPanics(arr: seq<int>, keys: seq<int>)
    requires |arr| >= 2 && |keys| == 2 && keys[0] == arr[|arr| - 1] && arr[0] <= arr[|arr| - 1]
    ensures MkbsAsWritten(arr, keys) == Panicked(IndexOutOfBounds)
  {
    FoundAtEndThenPanics(arr, keys, Unanswered(|keys|), 0, |keys| - 1);
  }
}

=== FILE: search_step.dfy ===
/**
 What one recursive call of either search does before recursing, and the range
 invariant both recursions keep.

 A call works on the haystack window `arr[arrL..=arrR]` and the key range
 `keys[keysL..=keysR]`. The key range is empty when `keysR < keysL`, which is why
 `keysR` is an `int` (Rust's `isize`) and may be `-1`. The haystack window is
 empty when `arrL == arrR + 1`.
 */
module SearchStep {
  import opened Outcomes
  import opened StdSearch

  /** `get_middle`: the floor midpoint of `left..=right`, which splits that range
      into two halves whose sizes differ by at most one. */
  function GetMiddle(left: nat, right: nat): (m: nat)
    requires left <= right
    ensures left <= m <= right
    ensures m - left <= right - m <= m - left + 1
  {
    left + (right - left) / 2
  }

  /** `usize::saturating_sub(n, 1)`. */
  function SaturatingPred(n: nat): (p: nat)
    ensures p + 1 == n || p == n == 0
  {
    if n == 0 then 0 else n - 1
  }

  /** `arr[arrL..=arrR].binary_search(&key)` with the slice index shifted back into
      the whole haystack (`SearchWindowIsSliceSearch` shows the two agree): a found
      index inside the window, or an insertion suggestion at most one past its end. */
  function SearchWindow(arr: seq<int>, arrL: nat, arrR: nat, key: int): (o: SearchResult)
    requires arrL <= arrR + 1 <= |arr|
    ensures o != Err(None)
    ensures o.Ok? ==> arrL <= o.value <= arrR && arr[o.value] == key
    ensures o.Err? ==> arrL <= o.error.value <= arrR + 1
  {
    match LastNotAbove(arr, key, arrL, arrR + 1 - arrL)
    case Ok(i) => Ok(i + arrL)
    case Err(i) => Err(Some(i + arrL))
  }

  /** Searching the window agrees with `binary_search` on any `w` holding the window
      `arr[arrL..=arrR]`, its index shifted by `arrL` and a miss wrapped in `Some`. */
  lemma SearchWindowShifted(arr: seq<int>, arrL: nat, arrR: nat, key: int, w: seq<int>)
    requires arrL <= arrR + 1 <= |arr|
    requires |w| == arrR + 1 - arrL && forall i :: 0 <= i < |w| ==> w[i] == arr[arrL + i]
    ensures SearchWindow(arr, arrL, arrR, key)
            == match BinarySearch(w, key)
               case Ok(i) => Ok(i + arrL)
               case Err(i) => Err(Some(i + arrL))
  {
    LastNotAboveSameSlice(w, arr, key, 0, arrL, |w|);
  }

  /** The window search is `binary_search` on the slice `arr[arrL..=arrR]`, its index
      then shifted by `arrL` and a miss wrapped in `Some`. */
  lemma SearchWindowIsSliceSearch(arr: seq<int>, arrL: nat, arrR: nat, key: int)
    requires arrL <= arrR + 1 <= |arr|
    ensures SearchWindow(arr, arrL, arrR, key)
            == match BinarySearch(arr[arrL..arrR + 1], key)
               case Ok(i) => Ok(i + arrL)
               case Err(i) => Err(Some(i + arrL))
  {
    SearchWindowShifted(arr, arrL, arrR, key, arr[arrL..arrR + 1]);
  }

  /** In a sorted haystack a suggestion of the window search splits the window:
      window elements before it are below the key, those from it on are above. */
  lemma SearchWindowSplits(arr: seq<int>, arrL: nat, arrR: nat, key: int)
    requires arrL <= arrR + 1 <= |arr| && Sorted(arr)
    ensures var o := SearchWindow(arr, arrL, arrR, key);
            o.Err? ==>
              && (forall j :: arrL <= j < o.error.value ==> arr[j] < key)
              && (forall j :: o.error.value <= j <= arrR ==> key < arr[j])
  {
    LastNotAboveSplits(arr, key, arrL, arrR + 1 - arrL);
  }

  /** The range invariant of both recursions: haystack elements left of the window are
      below every key of the key range, those right of it above every key of it. With
      sorted keys it suffices to compare against the first and the last key. */
  predicate Window(arr: seq<int>, arrL: nat, arrR: nat, keys: seq<int>, keysL: nat, keysR: int) {
    && arrL <= arrR + 1 <= |arr|
    && keysR < |keys|
    && (keysL <= keysR ==>
          && (forall j :: 0 <= j < arrL ==> arr[j] < keys[keysL])
          && (forall j :: arrR < j < |arr| ==> keys[keysR] < arr[j]))
  }

  /** The invariant holds for the whole haystack and the whole key batch. */
  lemma WindowInitial(arr: seq<int>, keys: seq<int>)
    requires |arr| > 0
    ensures Window(arr, 0, |arr| - 1, keys, 0, |keys| - 1)
  {
  }

  /** Every key of a range satisfying the invariant is bounded like its end keys. */
  lemma WindowKey(arr: seq<int>, arrL: nat, arrR: nat, keys: seq<int>, keysL: nat, keysR: int, k: nat)
    requires StrictlySorted(keys) && Window(arr, arrL, arrR, keys, keysL, keysR)
    requires keysL <= k <= keysR
    ensures forall j :: 0 <= j < arrL ==> arr[j] < keys[k]
    ensures forall j :: arrR < j < |arr| ==> keys[k] < arr[j]
  {
    assert keys[keysL] <= keys[k] <= keys[keysR];
  }

  /** Narrowing the key range keeps the invariant (the pruning steps rely on this). */
  lemma WindowShrink(arr: seq<int>, arrL: nat, arrR: nat, keys: seq<int>, keysL: nat, keysR: int,
                     keysL': nat, keysR': int)
    requires StrictlySorted(keys) && Window(arr, arrL, arrR, keys, keysL, keysR)
    requires keysL <= keysL' && keysR' <= keysR
    ensures Window(arr, arrL, arrR, keys, keysL', keysR')
  {
    if keysL' <= keysR' {
      WindowKey(arr, arrL, arrR, keys, keysL, keysR, keysL');
      WindowKey(arr, arrL, arrR, keys, keysL, keysR, keysR');
    }
  }

  /** With the invariant, the window search for a key of the range answers for the
      whole haystack: a suggestion is a true insertion point, and a present key is found. */
  lemma OutcomeAnswers(arr: seq<int>, arrL: nat, arrR: nat, keys: seq<int>, keysL: nat, keysR: int, mid: nat)
    requires Sorted(arr) && StrictlySorted(keys) && Window(arr, arrL, arrR, keys, keysL, keysR)
    requires keysL <= mid <= keysR
    ensures Answers(arr, keys[mid], SearchWindow(arr, arrL, arrR, keys[mid]))
  {
    SearchWindowSplits(arr, arrL, arrR, keys[mid]);
    WindowKey(arr, arrL, arrR, keys, keysL, keysR, mid);
  }

  /** The left recursion (`arrR := pos.saturating_sub(1)`, keys before `mid`) keeps the invariant. */
  lemma WindowLeft(arr: seq<int>, arrL: nat, arrR: nat, keys: seq<int>, keysL: nat, keysR: int, mid: nat)
    requires Sorted(arr) && StrictlySorted(keys) && Window(arr, arrL, arrR, keys, keysL, keysR)
    requires keysL <= mid <= keysR
    ensures Window(arr, arrL, SaturatingPred(Position(SearchWindow(arr, arrL, arrR, keys[mid]))),
                   keys, keysL, mid - 1)
  {
    var o := SearchWindow(arr, arrL, arrR, keys[mid]);
    var pos := Position(o);
    var arrR' := SaturatingPred(pos);
    SearchWindowSplits(arr, arrL, arrR, keys[mid]);
    if keysL <= mid - 1 {
      WindowKey(arr, arrL, arrR, keys, keysL, keysR, mid);
      forall j | arrR' < j < |arr|
        ensures keys[mid - 1] < arr[j]
      {
        assert keys[mid - 1] < keys[mid];
        if o.Ok? {
          assert arr[pos] <= arr[j];
        }
      }
    }
  }

  /** The right recursion (`arrL := pos + 1` after a hit, `pos` after a miss, keys after
      `mid`) keeps the invariant. */
  lemma WindowRight(arr: seq<int>, arrL: nat, arrR: nat, keys: seq<int>, keysL: nat, keysR: int, mid: nat)
    requires Sorted(arr) && StrictlySorted(keys) && Window(arr, arrL, arrR, keys, keysL, keysR)
    requires keysL <= mid <= keysR
    ensures var o := SearchWindow(arr, arrL, arrR, keys[mid]);
            Window(arr, if o.Ok? then Position(o) + 1 else Position(o), arrR, keys, mid + 1, keysR)
  {
    var o := SearchWindow(arr, arrL, arrR, keys[mid]);
    var pos := Position(o);
    var arrL' := if o.Ok? then pos + 1 else pos;
    SearchWindowSplits(arr, arrL, arrR, keys[mid]);
    if mid + 1 <= keysR {
      WindowKey(arr, arrL, arrR, keys, keysL, keysR, mid);
      forall j | 0 <= j < arrL'
        ensures arr[j] < keys[mid + 1]
      {
        assert keys[mid] < keys[mid + 1];
        if o.Ok? {
          assert arr[j] <= arr[pos];
        }
      }
    }
  }

  /** One search step under the invariant (both recursions use it): the outcome for the
      middle key is truthful, and both recursive calls start inside the invariant. Stated
      as an implication so that the recursions can use it without sorted input. */
  lemma StepKeepsWindow(arr: seq<int>, arrL: nat, arrR: nat, keys: seq<int>, keysL: nat, keysR: int, mid: nat)
    requires arrL <= arrR + 1 <= |arr| && keysL <= mid <= keysR < |keys|
    ensures var o := SearchWindow(arr, arrL, arrR, keys[mid]);
            Sorted(arr) && StrictlySorted(keys) && Window(arr, arrL, arrR, keys, keysL, keysR) ==>
              && Answers(arr, keys[mid], o)
              && Window(arr, arrL, SaturatingPred(Position(o)), keys, keysL, mid - 1)
              && Window(arr, if o.Ok? then Position(o) + 1 else Position(o), arrR, keys, mid + 1, keysR)
  {
    if Sorted(arr) && StrictlySorted(keys) && Window(arr, arrL, arrR, keys, keysL, keysR) {
      OutcomeAnswers(arr, arrL, arrR, keys, keysL, keysR, mid);
      WindowLeft(arr, arrL, arrR, keys, keysL, keysR, mid);
      WindowRight(arr, arrL, arrR, keys, keysL, keysR, mid);
    }
  }
}

=== FILE: std_search.dfy ===
/**
 The standard library's `slice::binary_search`, which both searches call on the
 current haystack window. Its documented contract (`Documented`): `Ok(i)` means
 `s[i] == key`; `Err(i)` means the key is absent and `i` is where inserting it keeps
 a sorted slice sorted. On an unsorted slice the `Err` index is meaningless, so that
 half of the contract asks for `Sorted(s)`.

 The library leaves open which of several equal elements an `Ok` points at, and what
 it reports on an unsorted slice. The model fixes one answer that keeps the contract:
 the last element not above the key decides (`LastNotAbove`), so on a sorted slice an
 `Ok` points at the last copy of the key, as the library's current bisection, which
 moves its base to the probe whenever the probed element is not above the key, does.
 */
module StdSearch {
  import opened Outcomes

  /** The documented contract of `binary_search` for one call. */
  predicate Documented(s: seq<int>, key: int, r: Result<nat, nat>) {
    && (r.Ok? ==> r.value < |s| && s[r.value] == key)
    && (r.Err? ==> r.error <= |s|)
    && (Sorted(s) && r.Err? ==> IsInsertionPoint(s, key, r.error))
  }

  /** The search of the slice of the `n` elements of `s` from `lo` on, reporting indices
      of that slice: the last element not above the key decides, `Ok` at it if it equals
      the key, `Err` just after it otherwise (`Err(0)` when there is none). */
  function LastNotAbove(s: seq<int>, key: int, lo: nat, n: nat): (r: Result<nat, nat>)
    requires lo + n <= |s|
    ensures r.Ok? ==> r.value < n && s[lo + r.value] == key
    ensures r.Err? ==> r.error <= n
    decreases n
  {
    if n == 0 then
      Err(0)
    else if s[lo + n - 1] <= key then
      if s[lo + n - 1] == key then Ok(n - 1) else Err(n)
    else
      LastNotAbove(s, key, lo, n - 1)
  }

  /** Slice elements after a found index, and from the index of a miss on, are above the
      key; on a miss the element just before the reported index is below it. */
  lemma {:induction false} LastNotAboveAfter(s: seq<int>, key: int, lo: nat, n: nat, e: nat)
    requires lo + n <= |s| && (LastNotAbove(s, key, lo, n) == Err(e) || LastNotAbove(s, key, lo, n) == Ok(e))
    ensures forall j :: lo + e < j < lo + n ==> key < s[j]
    ensures LastNotAbove(s, key, lo, n) == Err(e) && e < n ==> key < s[lo + e]
    ensures LastNotAbove(s, key, lo, n) == Err(e) && e > 0 ==> s[lo + e - 1] < key
    decreases n
  {
    if n > 0 && key < s[lo + n - 1] {
      LastNotAboveAfter(s, key, lo, n - 1, e);
    }
  }

  /** On a sorted sequence, slice elements before the index of a miss are below the key. */
  lemma LastNotAboveBefore(s: seq<int>, key: int, lo: nat, n: nat, e: nat)
    requires lo + n <= |s| && LastNotAbove(s, key, lo, n) == Err(e)
    ensures Sorted(s) ==> forall j :: lo <= j < lo + e ==> s[j] < key
  {
    LastNotAboveAfter(s, key, lo, n, e);
  }

  /** The converse of `LastNotAboveAfter`: when every slice element from `e` on is above
      the key and the one just before `e` (if any) is not, the search reports that
      element as a hit if it equals the key, and `e` as a miss otherwise. */
  lemma {:induction false} LastNotAboveAt(s: seq<int>, key: int, lo: nat, n: nat, e: nat)
    requires lo + n <= |s| && e <= n
    requires forall j :: lo + e <= j < lo + n ==> key < s[j]
    requires e > 0 ==> s[lo + e - 1] <= key
    ensures LastNotAbove(s, key, lo, n) == if e > 0 && s[lo + e - 1] == key then Ok(e - 1) else Err(e)
    decreases n
  {
    if e < n {
      assert key < s[lo + n - 1];
      LastNotAboveAt(s, key, lo, n - 1, e);
    }
  }

  /** On a sorted sequence a miss of the search splits the slice: elements before the
      reported index are below the key, those from it on are above it. */
  lemma LastNotAboveSplits(s: seq<int>, key: int, lo: nat, n: nat)
    requires lo + n <= |s|
    ensures Sorted(s) && LastNotAbove(s, key, lo, n).Err? ==>
              && (forall j :: lo <= j < lo + LastNotAbove(s, key, lo, n).error ==> s[j] < key)
              && (forall j :: lo + LastNotAbove(s, key, lo, n).error <= j < lo + n ==> key < s[j])
  {
    if LastNotAbove(s, key, lo, n).Err? {
      LastNotAboveBefore(s, key, lo, n, LastNotAbove(s, key, lo, n).error);
      LastNotAboveAfter(s, key, lo, n, LastNotAbove(s, key, lo, n).error);
    }
  }

  /** The search only looks at the slice: two slices holding the same elements, at `lo`
      in `t` and at `ls` in `s`, are searched alike. */
  lemma {:induction false} LastNotAboveSameSlice(t: seq<int>, s: seq<int>, key: int, lo: nat, ls: nat, n: nat)
    requires lo + n <= |t| && ls + n <= |s|
    requires forall i :: lo <= i < lo + n ==> t[i] == s[i - lo + ls]
    ensures LastNotAbove(t, key, lo, n) == LastNotAbove(s, key, ls, n)
    decreases n
  {
    if n > 0 {
      assert t[lo + n - 1] == s[ls + n - 1];
      LastNotAboveSameSlice(t, s, key, lo, ls, n - 1);
    }
  }

  /** `binary_search` on a whole slice. */
  function BinarySearch(s: seq<int>, key: int): (r: Result<nat, nat>)
    ensures r.Ok? ==> r.value < |s| && s[r.value] == key
    ensures r.Err? ==> r.error <= |s|
  {
    LastNotAbove(s, key, 0, |s|)
  }

  /** The search keeps the documented contract of `binary_search`. */
  lemma BinarySearchDocumented(s: seq<int>, key: int)
    ensures Documented(s, key, BinarySearch(s, key))
  {
    LastNotAboveSplits(s, key, 0, |s|);
  }
}
